=== FILE: README.md ===
# LineageOS issue triage bot — verified model

`label.py` triages a newly opened LineageOS bug report. It leaves an issue that already has a
label alone. Otherwise it reads the eleven fields of the issue form and rewrites the `version`
field with four "friendly" patterns. It then downloads the list of build targets, turns it
into a dictionary from device codename to supported version, and checks device and version
against it and the build date's format. An issue with problems is closed under a comment that lists them. A
valid issue gets the labels `device:<codename>` and `<version>`.

This project models that logic in Dafny and proves what it promises:

- `wrappers.dfy` (`Wrappers`): `Option` and `Result`.
- `text.dfy` (`Text`): the Python string operations the bot relies on. These are the ASCII
  `\d`, greedy digit runs, the `$` anchor (which also matches before one final newline),
  substring `in`, `str.split()` with Python's whitespace set, and `str.join`. The digit runs,
  the anchor, `in`, `split` and `join` each have a partner lemma; the character classes are
  plain predicates.
- `ordered_map.dfy` (`OrderedMap`): Python `dict` assignment. A new key goes to the end of
  the key order, and an existing key keeps its place and takes the new value.
- `issue.dfy` (`Issue`): `IssueBody` and the version rewrite, pattern by pattern.
- `device_table.dfy` (`DeviceTable`): the loop of `device_list` over the lines of the list.
  It is an imperative method proved against a specification function.
- `validation.dfy` (`Validation`): `issue_errors` with the table as a parameter, as an
  imperative method that appends messages. Lemmas give the condition for each message.
- `dispatch.dfy` (`Dispatch`): the decision of `main` (nothing / comment and close / two
  labels), the text of the comment, and the whole run (`Triage`, `Run`).

The second rewrite rule turns `lineage-20-something` into `20.0`, without the `lineage-`
prefix that the other rules produce. The model keeps this behaviour. `Issue.NormalizeDropsPrefix`
and `Issue.NormalizeTwice` show what follows from it: rewriting a second time turns `20.0`
into `lineage-20.0`, so the rewrite is idempotent only up to that prefix.

`label.py` assigns no maintainers and has no separate comment for a malformed form. A form
without a required key makes the run fail with a `KeyError`, modelled as
`Err(BadPayload(MissingKey(k)))`.

## Model

| member | source | states |
|---|---|---|
| `Text.LeadingDigits` | label.py:40 | the greedy `\d+` run at the start of a text: a digit prefix that no further digit extends |
| `Text.LeadingDigitsOf` | label.py:40-45 | a digit run followed by a non-digit is exactly what the greedy run takes |
| `Text.StripFinalNewline` | label.py:46 | the part that a pattern ending in `$` must match: the text, or the text less one final newline |
| `Text.Contains` | label.py:61 | the substring test `in`; characterised by `Text.ContainsAt` |
| `Text.ContainsAt` | label.py:61 | the substring test `' lineage-' in line` holds iff the marker occurs at some position |
| `Text.Join` | label.py:76 | `sep.join(xs)`; characterised by `Text.JoinAppend` and, for `"\n"`, inverted by `Text.SplitOfJoin` |
| `Text.Fields` | label.py:62 | `line.split()`: every field is non-empty and free of Python whitespace; `Text.FieldsOfLayout` pins down exactly which fields |
| `Text.FieldsSkipSpace` | label.py:62 | whitespace before a text adds no field |
| `Text.FieldsOfSpread` | label.py:62 | words separated by non-empty whitespace runs, with any whitespace after them, split back into exactly those words |
| `Text.FieldsOfLayout` | label.py:62 | for any whitespace before, between (non-empty) and after a list of words, `split()` gives exactly those words |
| `Text.FieldsOfJoin` | label.py:62 | splitting words joined by single spaces gives back exactly those words |
| `Text.SplitOfJoin` | label.py:109 | splitting a newline-joined list of newline-free lines gives the lines back |
| `Text.JoinAppend` | label.py:109-119 | joining two non-empty lists is the two joins with one separator between |
| `OrderedMap.Put` | label.py:63 | `d[k] = v`: a new key goes last, an existing key keeps its place; characterised by `OrderedMap.PutValid` and the `Build` lemmas |
| `OrderedMap.Build` | label.py:55-63 | the dictionary built from `{}` by the loop's assignments in order; characterised by `OrderedMap.BuildValid`, `BuildHasKey`, `BuildLastWins`, `BuildValueFrom` and `BuildKeyOrder` |
| `OrderedMap.PutValid` | label.py:63 | `ret[codename] = version` keeps each key once, in step with the mapping, and stores the value |
| `OrderedMap.BuildValid` | label.py:55-63 | the dictionary the loop builds lists each key once, in step with its mapping |
| `OrderedMap.BuildHasKey` | label.py:55-63 | a key is in the built dictionary iff some step assigned to it |
| `OrderedMap.BuildLastWins` | label.py:63 | a key's value is the one given by its last assignment |
| `OrderedMap.BuildValueFrom` | label.py:63 | every stored value was given by some assignment |
| `OrderedMap.BuildKeyOrder` | label.py:63 | keys stay in the order of their first assignment; later assignments move nothing |
| `Issue.FirstMissing` | label.py:27-37 | none is missing iff every key is present; otherwise the first missing key in reading order |
| `Issue.NewIssueBody` | label.py:26-51 | succeeds iff all eleven keys are present; ten fields copied verbatim, `version` rewritten; otherwise fails with the first missing key |
| `Issue.NormalizeVersion` | label.py:39-51 | the four patterns tried in order; characterised pattern by pattern by the five `Normalize…` rule lemmas below |
| `Issue.FindLineageMajorMinor` | label.py:40 | `re.findall(r'^lineage-(\d+)\.(\d+)', v)`: the two maximal digit runs after `lineage-` and a dot; characterised by `Issue.NormalizeLineageMajorMinor` and, for no match, by the independent requires of `Issue.NormalizeOther` |
| `Issue.FindLineageMajor` | label.py:43 | `re.findall(r'^lineage-(\d+)', v)`: the maximal digit run after `lineage-`; characterised by `Issue.NormalizeLineageMajor` and the requires of `Issue.NormalizeOther` |
| `Issue.FindNumber` | label.py:46 | `re.findall(r'^(\d+)$', v)`: the whole text is a digit run, with at most one final newline; characterised by `Issue.NormalizeNumber` and the `IsDigitRun` requires of `Issue.NormalizeOther` |
| `Issue.FindDecimal` | label.py:49 | `re.findall(r'^(\d+)\.(\d+)$', v)`: the whole text is two digit runs around a dot, with at most one final newline; characterised by `Issue.NormalizeDecimal` and the `IsDecimal` requires of `Issue.NormalizeOther` |
| `Issue.NormalizeLineageMajorMinor` | label.py:40-42 | `lineage-M.N<tail>`, N maximal, becomes `lineage-M.N` |
| `Issue.NormalizeLineageMajor` | label.py:43-45 | `lineage-M<tail>` without a `.N` after M becomes `M.0`, without the prefix |
| `Issue.NormalizeNumber` | label.py:46-48 | an all-digit `M`, with or without one final newline, becomes `lineage-M.0` |
| `Issue.NormalizeDecimal` | label.py:49-51 | exactly `M.N`, with or without one final newline, becomes `lineage-M.N` |
| `Issue.NormalizeOther` | label.py:39-51 | a version that none of the four patterns matches is kept unchanged |
| `Issue.CanonicalIsFixedPoint` | label.py:40-42 | a canonical `lineage-M.N` is left as it is |
| `Issue.NormalizeTwice` | label.py:39-51 | rewriting twice gives the same result as once, or that result with `lineage-` put back; the second pass changes something iff rule 1 fails and rule 2 matches |
| `Issue.NormalizePointRelease` | label.py:41-42 | `lineage-20.0.1` becomes `lineage-20.0` |
| `Issue.NormalizeDropsPrefix` | label.py:43-45 | `lineage-20-something` becomes `20.0`, which a second pass would turn into `lineage-20.0` |
| `Issue.NormalizeBareMajor` | label.py:46-48 | `20` becomes `lineage-20.0` |
| `DeviceTable.IsDeviceEntry` | label.py:61 | `' lineage-' in line`: the line holds the marker somewhere, as `Text.ContainsAt` states; the `Table…` lemmas are stated over it |
| `DeviceTable.Step` | label.py:61-63 | one pass of the loop body; used by `DeviceTable.ParseTable` |
| `DeviceTable.ParseTable` | label.py:57-63 | the table or unpacking error after the given lines; characterised by `ParseTableOk`, `ParseTableError`, `TableKeys`, `TableValue`, `TableOrder` and `TableShape` |
| `DeviceTable.ParseTableErrorSticks` | label.py:57-63 | once a line fails, the whole parse fails with that line's error |
| `DeviceTable.DeviceList` | label.py:54-65 | the imperative loop returns exactly the specified table or unpacking error |
| `DeviceTable.ParseTableOk` | label.py:57-63 | the list parses iff every line holding ` lineage-` has four fields; the table is then the ordered result of those lines' assignments |
| `DeviceTable.ParseTableError` | label.py:61-62 | a failure names the first marker line whose field count is not four, and that count |
| `DeviceTable.TableKeys` | label.py:61-63 | a codename is a key iff some marker line has it as first field |
| `DeviceTable.TableValue` | label.py:62-63 | a codename's version is the third field of the last marker line that names it |
| `DeviceTable.TableOrder` | label.py:63 | keys are ordered by their first marker line; a later line for a codename does not move it |
| `DeviceTable.TableShape` | label.py:62-63 | a parsed table lists each codename once and every version is a non-empty whitespace-free field |
| `Validation.DeviceError` | label.py:76 | the exact device message, codenames joined by `", "`; see `Validation.MessageKinds` |
| `Validation.VersionError` | label.py:82 | the exact version message; see `Validation.VersionErrorInjective` |
| `Validation.DateError` | label.py:86 | the exact date message |
| `Validation.IsDate` | label.py:85 | `^\d{8}$`: eight digits, with at most one final newline; see `Validation.DateErrorIff` |
| `Validation.Errors` | label.py:68-88 | the specified problem list; characterised by the `…Iff`, `ErrorOrder`, `ErrorKinds` and `NoErrorsIff` lemmas |
| `Validation.IssueErrors` | label.py:68-88 | the appended list equals the specified problems, in check order |
| `Validation.MessageKinds` | label.py:76-86 | device, version and date messages start with `D`, `L` and `B`, so they never coincide |
| `Validation.VersionErrorInjective` | label.py:82 | a version message determines the supported version it names |
| `Validation.DeviceErrorIff` | label.py:74-77 | the device error appears iff the device is not a key, and then it comes first and lists all codenames in table order |
| `Validation.VersionErrorIff` | label.py:79-83 | a version error naming `v` appears iff the device is known, its table version is `v`, `v` is non-empty and differs from the issue's version |
| `Validation.DateErrorIff` | label.py:85-86 | the date error appears iff the date is not eight digits (one final newline allowed), and then it is last |
| `Validation.ErrorOrder` | label.py:68-88 | at most two messages; a device error excludes every version error; with two, the second is the date error |
| `Validation.ErrorKinds` | label.py:68-88 | every message is the device error, a version error or the date error, and the list holds exactly one message per failing check |
| `Validation.NoErrorsIff` | label.py:74-88 | for a table without empty versions, no problems iff device known, version equal to the table's and date valid |
| `Dispatch.Bullets` | label.py:116 | one bullet per problem, the i-th being `* ` followed by the i-th problem, whatever the problem holds |
| `Dispatch.CommentText` | label.py:109-119 | the closing comment; by `Dispatch.CommentLayout` it is the preamble, a newline, the bullets of `Dispatch.Bullets` joined by newlines, a newline and the trailer |
| `Dispatch.Labels` | label.py:124-127 | the two (label, colour) pairs; see `Dispatch.DecideCases` |
| `Dispatch.Decide` | label.py:99-130 | the three-way decision; characterised by `Dispatch.DecideCases`, including the comment that is posted |
| `Dispatch.DecideCases` | label.py:99-130 | exactly one outcome: nothing iff labelled; comment-and-close iff unlabelled with problems, and the comment is then `CommentText` of those problems; else `device:<device>` (`0075ca`) then `<version>` (`008672`) |
| `Dispatch.CommentLayout` | label.py:109-119 | for any non-empty problem list, the comment is preamble, newline, the bullets joined by newlines, newline, trailer |
| `Dispatch.CommentLines` | label.py:116 | for problems without newlines, the bullet part reads back as one `* <error>` line per problem, in order |
| `Dispatch.Triage` | label.py:91-130 | `main`'s order: labels, then the form, then the device list, then the problems; characterised for all inputs by `Dispatch.TriageLabelledIsNoOp`, `Dispatch.TriageMissingKey` and `Dispatch.TriageOutcome` |
| `Dispatch.Run` | label.py:91-130 | the imperative run returns exactly the specified outcome |
| `Dispatch.TriageLabelledIsNoOp` | label.py:99-102 | a labelled issue gets no action, whatever its form and the device list |
| `Dispatch.TriageLabelsValidIssue` | label.py:104-130 | a bare version `M` matching a table entry `lineage-M.0` with a valid date gets `device:<device>` and `lineage-M.0`, in that order |
| `Dispatch.TriageClosesUnknownDevice` | label.py:104-121 | a device that no marker line names gets a closing comment whose first problem lists every codename; no labels |
| `Dispatch.TriageMissingKey` | label.py:27-37 | a form lacking a key ends the run with the first missing key in reading order |
| `Dispatch.TriageOutcome` | label.py:104-130 | for an unlabelled issue with a complete form: a malformed device list ends the run with its error; otherwise the issue is labelled iff its device is listed with its normalised version and its date is eight digits, and is closed under the comment listing its problems otherwise |

## Left out

- The download of the build-target list (`requests.get` with its timeout) and `splitlines()`: the lines of the list are a parameter.
- The GitHub calls: authentication, repository and issue lookup, reading the labels (only their count is a parameter), `create_comment`, `edit`, `create_label`, `get_label` and `add_to_labels`. The model computes the action that drives them.
- The suppressed `GithubException` around `create_label`: library error handling with no effect on the decision.
- Environment variables and `json.loads`: the form is a parameter, a map from key to string. JSON members that are not strings are not modelled: a non-string `version` or `date` makes `re.findall` raise, and other non-string members are copied as they are.
- `\d` is taken as ASCII `0`-`9`. Python's `\d` on `str` also matches other Unicode decimal digits.
- The log line printed for a labelled issue.

=== FILE: device_table.dfy ===
/**
 * `device_list` of label.py, without the download: the lines of the build-target list become
 * an insertion-ordered dictionary from device codename to its supported version.
 */
module DeviceTable {
  import opened Wrappers
  import opened Text
  import opened OrderedMap

  /** A line of the list is a device entry when it holds this text. */
  const Marker: string := " lineage-"

  predicate IsDeviceEntry(line: string) {
    Contains(line, Marker)
  }

  /** The `ValueError` of unpacking a device entry that does not split into four fields. */
  datatype TableError = FieldCount(line: nat, count: nat)

  /** One pass of the loop body: `codename, _, version, _ = line.split(); ret[codename] = version`. */
  function Step(d: Dict, line: string, index: nat): Result<Dict, TableError> {
    if !IsDeviceEntry(line) then Ok(d)
    else
      var f := Fields(line);
      if |f| != 4 then Err(FieldCount(index, |f|)) else Ok(Put(d, f[0], f[2]))
  }

  /** The dictionary the loop has built after the given lines, or the error that stopped it. */
  function ParseTable(lines: seq<string>): Result<Dict, TableError> {
    if lines == [] then Ok(Empty())
    else
      match ParseTable(lines[..|lines| - 1])
      case Err(e) => Err(e)
      case Ok(d) => Step(d, lines[|lines| - 1], |lines| - 1)
  }

  /** Every device entry splits into exactly four fields. */
  predicate WellFormed(lines: seq<string>) {
    forall i :: 0 <= i < |lines| && IsDeviceEntry(lines[i]) ==> |Fields(lines[i])| == 4
  }

  /** The assignment a line performs, when it performs one. */
  function Entry(line: string): Option<(string, string)> {
    if !IsDeviceEntry(line) then None
    else
      var f := Fields(line);
      if |f| != 4 then None else Some((f[0], f[2]))
  }

  function Entries(lines: seq<string>): (es: seq<Option<(string, string)>>)
    ensures |es| == |lines| && forall i :: 0 <= i < |lines| ==> es[i] == Entry(lines[i])
  {
    seq(|lines|, i requires 0 <= i < |lines| => Entry(lines[i]))
  }

  /** Once a line has failed, the whole list fails with that line's error. */
  lemma {:induction false} ParseTableErrorSticks(lines: seq<string>, i: nat)
    requires i <= |lines| && ParseTable(lines[..i]).Err?
    ensures ParseTable(lines) == ParseTable(lines[..i])
    decreases |lines|
  {
    if i < |lines| {
      var n := |lines| - 1;
      assert lines[..n][..i] == lines[..i];
      ParseTableErrorSticks(lines[..n], i);
    } else {
      assert lines[..i] == lines;
    }
  }

  /** The loop of `device_list`, building `ret` entry by entry. */
  method DeviceList(lines: seq<string>) returns (r: Result<Dict, TableError>)
    ensures r == ParseTable(lines)
  {
    var ret := Empty();
    var i := 0;
    while i < |lines|
      invariant 0 <= i <= |lines|
      invariant ParseTable(lines[..i]) == Ok(ret)
    {
      var line := lines[i];
      assert lines[..i + 1][..i] == lines[..i];
      if IsDeviceEntry(line) {
        var f := Fields(line);
        if |f| != 4 {
          r := Err(FieldCount(i, |f|));
          ParseTableErrorSticks(lines, i + 1);
          return;
        }
        ret := Put(ret, f[0], f[2]);
      }
      i := i + 1;
    }
    assert lines[..|lines|] == lines;
    r := Ok(ret);
  }

  /**
   * The list parses exactly when every device entry has four fields, and the dictionary is
   * then the one built by performing the entries' assignments in order.
   */
  lemma {:induction false} ParseTableOk(lines: seq<string>)
    ensures ParseTable(lines).Ok? <==> WellFormed(lines)
    ensures ParseTable(lines).Ok? ==> ParseTable(lines).value == Build(Entries(lines))
  {
    if lines != [] {
      var n := |lines| - 1;
      var init := lines[..n];
      ParseTableOk(init);
      assert Entries(lines)[..n] == Entries(init);
      assert WellFormed(lines) <==> WellFormed(init) && (IsDeviceEntry(lines[n]) ==> |Fields(lines[n])| == 4) by {
        if WellFormed(init) && (IsDeviceEntry(lines[n]) ==> |Fields(lines[n])| == 4) {
          forall i | 0 <= i < |lines| && IsDeviceEntry(lines[i])
            ensures |Fields(lines[i])| == 4
          {
            if i < n { assert lines[i] == init[i]; }
          }
        }
        if WellFormed(lines) {
          forall i | 0 <= i < |init| && IsDeviceEntry(init[i])
            ensures |Fields(init[i])| == 4
          {
            assert lines[i] == init[i];
          }
        }
      }
    }
  }

  /** A failure names the first device entry that does not have four fields, and its field count. */
  lemma {:induction false} ParseTableError(lines: seq<string>)
    requires ParseTable(lines).Err?
    ensures var e := ParseTable(lines).error;
            e.line < |lines| && IsDeviceEntry(lines[e.line]) && e.count == |Fields(lines[e.line])|
            && e.count != 4 && WellFormed(lines[..e.line])
  {
    var n := |lines| - 1;
    var init := lines[..n];
    if ParseTable(init).Err? {
      ParseTableError(init);
      var e := ParseTable(init).error;
      assert init[..e.line] == lines[..e.line];
    } else {
      ParseTableOk(init);
      assert lines[..n] == init;
    }
  }

  /** A codename is in the table exactly when some device entry names it. */
  lemma TableKeys(lines: seq<string>, k: string)
    requires WellFormed(lines)
    ensures ParseTable(lines).Ok?
    ensures k in ParseTable(lines).value.values
            <==> exists i :: 0 <= i < |lines| && IsDeviceEntry(lines[i]) && Fields(lines[i])[0] == k
  {
    ParseTableOk(lines);
    var es := Entries(lines);
    BuildHasKey(es, k);
    forall i | 0 <= i < |lines|
      ensures Assigns(es, i, k) <==> IsDeviceEntry(lines[i]) && Fields(lines[i])[0] == k
    {
    }
  }

  /** A codename's version is the third field of the last device entry that names it. */
  lemma TableValue(lines: seq<string>, i: int)
    requires WellFormed(lines)
    requires 0 <= i < |lines| && IsDeviceEntry(lines[i])
    requires forall j :: i < j < |lines| && IsDeviceEntry(lines[j]) ==> Fields(lines[j])[0] != Fields(lines[i])[0]
    ensures ParseTable(lines).Ok?
    ensures Fields(lines[i])[0] in ParseTable(lines).value.values
    ensures ParseTable(lines).value.values[Fields(lines[i])[0]] == Fields(lines[i])[2]
  {
    ParseTableOk(lines);
    var es := Entries(lines);
    forall j | i < j < |es|
      ensures !Assigns(es, j, es[i].value.0)
    {
    }
    BuildLastWins(es, i);
  }

  /**
   * Codenames keep the order of their first device entry: a later redefinition moves nothing.
   * For two keys at positions `p < q`, the first has an entry before every entry of the second.
   */
  lemma TableOrder(lines: seq<string>, p: int, q: int)
    requires WellFormed(lines)
    requires ParseTable(lines).Ok? && 0 <= p < q < |ParseTable(lines).value.keys|
    ensures var keys := ParseTable(lines).value.keys;
            exists i :: 0 <= i < |lines| && IsDeviceEntry(lines[i]) && Fields(lines[i])[0] == keys[p]
                        && forall j :: 0 <= j <= i && IsDeviceEntry(lines[j]) ==> Fields(lines[j])[0] != keys[q]
  {
    ParseTableOk(lines);
    var es := Entries(lines);
    var keys := ParseTable(lines).value.keys;
    BuildKeyOrder(es, p, q);
    var i :| 0 <= i < |es| && Assigns(es, i, keys[p]) && forall j :: 0 <= j <= i ==> !Assigns(es, j, keys[q]);
    assert IsDeviceEntry(lines[i]) && Fields(lines[i])[0] == keys[p];
    forall j | 0 <= j <= i && IsDeviceEntry(lines[j])
      ensures Fields(lines[j])[0] != keys[q]
    {
      assert !Assigns(es, j, keys[q]);
    }
  }

  /**
   * A parsed table lists each codename once, in step with its mapping, and every version in it
   * is a non-empty whitespace-free field, so it is never Python-false.
   */
  lemma TableShape(lines: seq<string>)
    requires ParseTable(lines).Ok?
    ensures Valid(ParseTable(lines).value)
    ensures forall k :: k in ParseTable(lines).value.values ==> IsWord(ParseTable(lines).value.values[k])
  {
    ParseTableOk(lines);
    var es := Entries(lines);
    BuildValid(es);
    forall k | k in Build(es).values
      ensures IsWord(Build(es).values[k])
    {
      BuildValueFrom(es, k);
    }
  }
}

=== FILE: dispatch.dfy ===
/**
 * The decision `main` of label.py takes for one issue: leave an already labelled issue alone,
 * close an issue with problems under an itemised comment, or label a valid one with its
 * device and its version. The GitHub calls that carry the decision out are not modelled.
 */
module Dispatch {
  import opened Wrappers
  import opened Text
  import opened OrderedMap
  import opened Issue
  import opened DeviceTable
  import opened Validation

  datatype Action =
    | Nothing
    | CommentAndClose(comment: string)
    | AddLabels(labels: seq<(string, string)>)  // (label name, colour), applied in this order

  const Preamble: seq<string> := [
    "Hi! It appears you didn't read or follow the provided issue template.",
    "Please edit your issue to include the requested fields and follow the provided template, then reopen it.",
    "For more information please see https://wiki.lineageos.org/how-to/bugreport.",
    "",
    "Problems:",
    ""]

  const Trailer: seq<string> := ["", "(this action was performed by a bot)"]

  const DeviceColor: string := "0075ca"
  const VersionColor: string := "008672"

  /** `[f'* {x}' for x in errors]`. */
  function Bullets(errors: seq<string>): (r: seq<string>)
    ensures |r| == |errors|
    ensures forall i :: 0 <= i < |errors| ==> r[i] == "* " + errors[i]
  {
    seq(|errors|, i requires 0 <= i < |errors| => "* " + errors[i])
  }

  /** The closing comment: preamble, one bullet per problem, trailer, joined by newlines. */
  function CommentText(errors: seq<string>): string {
    Join("\n", Preamble + Bullets(errors) + Trailer)
  }

  /** The labels of a valid issue with their colours. */
  function Labels(body: IssueBody): seq<(string, string)> {
    [("device:" + body.device, DeviceColor), (body.version, VersionColor)]
  }

  function Decide(labelCount: nat, body: IssueBody, errors: seq<string>): Action {
    if labelCount > 0 then Nothing
    else if errors != [] then CommentAndClose(CommentText(errors))
    else AddLabels(Labels(body))
  }

  /**
   * Exactly one of three outcomes: nothing for a labelled issue; otherwise the comment listing
   * the problems, posted before closing, when there are any; otherwise the device label then the version label.
   */
  lemma DecideCases(labelCount: nat, body: IssueBody, errors: seq<string>)
    ensures labelCount > 0 <==> Decide(labelCount, body, errors) == Nothing
    ensures Decide(labelCount, body, errors).CommentAndClose? <==> labelCount == 0 && errors != []
    ensures labelCount == 0 && errors != [] ==>
              Decide(labelCount, body, errors) == CommentAndClose(CommentText(errors))
    ensures labelCount == 0 && errors == [] ==>
              Decide(labelCount, body, errors)
              == AddLabels([("device:" + body.device, DeviceColor), (body.version, VersionColor)])
  {
  }

  /**
   * The closing comment is the preamble text, a newline, the bullets `* <error>` joined by
   * newlines, a newline and the trailer text, whatever the problems hold.
   */
  lemma CommentLayout(errors: seq<string>)
    requires errors != []
    ensures CommentText(errors)
            == Join("\n", Preamble) + "\n" + Join("\n", Bullets(errors)) + "\n" + Join("\n", Trailer)
  {
    var bs := Bullets(errors);
    JoinAppend("\n", Preamble, bs);
    JoinAppend("\n", Preamble + bs, Trailer);
  }

  /**
   * For problems that hold no newline, the bullet part of the comment reads back line by line
   * as exactly one `* <error>` per problem, in order.
   */
  lemma CommentLines(errors: seq<string>)
    requires errors != []
    requires forall j :: 0 <= j < |errors| ==> '\n' !in errors[j]
    ensures var bullets := Join("\n", Bullets(errors));
            |Split(bullets, '\n')| == |errors|
            && forall k :: 0 <= k < |errors| ==> Split(bullets, '\n')[k] == "* " + errors[k]
  {
    var bs := Bullets(errors);
    forall j | 0 <= j < |bs|
      ensures '\n' !in bs[j]
    {
      assert '\n' !in "* ";
      assert bs[j] == "* " + errors[j];
    }
    SplitOfJoin(bs, '\n');
    assert ['\n'] == "\n";
  }

  /** Why a run ends without a decision: a form without a required key, or a malformed device list. */
  datatype Failure = BadPayload(payloadError: PayloadError) | BadTable(tableError: TableError)

  /**
   * What `main` decides, in its order: the label count first, then the issue form, then the
   * device list that `issue_errors` reads, then the problems.
   */
  function Triage(labelCount: nat, payload: Payload, lines: seq<string>): Result<Action, Failure> {
    if labelCount > 0 then Ok(Nothing)
    else
      match NewIssueBody(payload)
      case Err(e) => Err(BadPayload(e))
      case Ok(body) =>
        match ParseTable(lines)
        case Err(e) => Err(BadTable(e))
        case Ok(devices) => Ok(Decide(0, body, Errors(body, devices)))
  }

  /** The steps of `main`, calling the imperative device-list loop and error list. */
  method Run(labelCount: nat, payload: Payload, lines: seq<string>) returns (r: Result<Action, Failure>)
    ensures r == Triage(labelCount, payload, lines)
  {
    if labelCount > 0 {
      return Ok(Nothing);
    }
    var parsed := NewIssueBody(payload);
    if parsed.Err? {
      return Err(BadPayload(parsed.error));
    }
    var body := parsed.value;
    var devices := DeviceList(lines);
    if devices.Err? {
      return Err(BadTable(devices.error));
    }
    var errors := IssueErrors(body, devices.value);
    r := Ok(Decide(0, body, errors));
  }

  /** An issue that already has a label is left alone whatever its form and the device list. */
  lemma TriageLabelledIsNoOp(labelCount: nat, payload: Payload, lines: seq<string>)
    requires labelCount > 0
    ensures Triage(labelCount, payload, lines) == Ok(Nothing)
  {
  }

  /**
   * A form with a bare major version `M`, a known device whose last entry lists `lineage-M.0`,
   * and an eight-digit date gets the labels `device:<device>` and `lineage-M.0`, in that order.
   * (`Keys[0]`, `Keys[1]` and `Keys[2]` are `device`, `version` and `date`.)
   */
  lemma TriageLabelsValidIssue(payload: Payload, lines: seq<string>, entry: int, major: string)
    requires forall i :: 0 <= i < |Keys| ==> Keys[i] in payload
    requires IsDigitRun(major) && payload[Keys[1]] == major
    requires IsDate(payload[Keys[2]])
    requires WellFormed(lines)
    requires 0 <= entry < |lines| && IsDeviceEntry(lines[entry])
    requires Fields(lines[entry])[0] == payload[Keys[0]] && Fields(lines[entry])[2] == Lineage + major + ".0"
    requires forall j :: entry < j < |lines| && IsDeviceEntry(lines[j]) ==> Fields(lines[j])[0] != payload[Keys[0]]
    ensures Triage(0, payload, lines)
            == Ok(AddLabels([("device:" + payload[Keys[0]], "0075ca"), (Lineage + major + ".0", "008672")]))
  {
    NormalizeNumber(major, "");
    assert major + "" == major;
    var body := NewIssueBody(payload).value;
    TableValue(lines, entry);
    var devices := ParseTable(lines).value;
    TableShape(lines);
    NoErrorsIff(body, devices);
  }

  /**
   * A form whose device no entry names is closed with a comment whose first problem is the
   * device error listing every codename of the table; no label is applied.
   */
  lemma TriageClosesUnknownDevice(payload: Payload, lines: seq<string>, body: IssueBody, devices: Dict)
    requires NewIssueBody(payload) == Ok(body) && ParseTable(lines) == Ok(devices)
    requires WellFormed(lines)
    requires forall i :: 0 <= i < |lines| && IsDeviceEntry(lines[i]) ==> Fields(lines[i])[0] != payload[Keys[0]]
    ensures Errors(body, devices) != []
    ensures Triage(0, payload, lines) == Ok(CommentAndClose(CommentText(Errors(body, devices))))
    ensures Errors(body, devices)[0] == DeviceError(payload[Keys[0]], devices.keys)
  {
    ParseTableOk(lines);
    TableKeys(lines, payload[Keys[0]]);
    DeviceErrorIff(body, devices);
  }

  /**
   * The outcome for an unlabelled issue with a complete form, for every device list: a malformed
   * list stops the run with its error; otherwise the issue is labelled exactly when its device is
   * listed with the form's normalised version and its date is eight digits, and is closed under
   * the comment listing its problems in every other case.
   */
  lemma TriageOutcome(payload: Payload, lines: seq<string>, body: IssueBody)
    requires NewIssueBody(payload) == Ok(body)
    ensures ParseTable(lines).Err? ==> Triage(0, payload, lines) == Err(BadTable(ParseTable(lines).error))
    ensures ParseTable(lines).Ok? ==>
              (Triage(0, payload, lines) == Ok(AddLabels(Labels(body)))
               <==> body.device in ParseTable(lines).value.values
                    && body.version == ParseTable(lines).value.values[body.device]
                    && IsDate(body.date))
    ensures ParseTable(lines).Ok? && Triage(0, payload, lines) != Ok(AddLabels(Labels(body))) ==>
              Triage(0, payload, lines)
              == Ok(CommentAndClose(CommentText(Errors(body, ParseTable(lines).value))))
  {
    if ParseTable(lines).Ok? {
      var devices := ParseTable(lines).value;
      TableShape(lines);
      NoErrorsIff(body, devices);
    }
  }

  /** A form without a required key stops the run with the first key missing in reading order. */
  lemma TriageMissingKey(payload: Payload, lines: seq<string>, i: int)
    requires 0 <= i < |Keys| && Keys[i] !in payload
    requires forall j :: 0 <= j < i ==> Keys[j] in payload
    ensures Triage(0, payload, lines) == Err(BadPayload(MissingKey(Keys[i])))
  {
    var r := NewIssueBody(payload);
    assert Keys[i] in Keys;
    assert r.Err?;
    var i' :| 0 <= i' < |Keys| && r.error == MissingKey(Keys[i']) && Keys[i'] !in payload
              && forall j :: 0 <= j < i' ==> Keys[j] in payload;
    assert i' == i;
  }
}

=== FILE: issue.dfy ===
/**
 * The issue record of label.py (`IssueBody`): eleven text fields copied from the issue
 * form, with the `version` field rewritten by four "friendly" patterns tried in order.
 */
module Issue {
  import opened Wrappers
  import opened Text

  datatype IssueBody = IssueBody(
    device: string,
    version: string,
    date: string,
    kernel: string,
    baseband: string,
    mods: string,
    expected: string,
    current: string,
    solution: string,
    reproduce: string,
    directions: string)

  /** The decoded JSON object of the issue form, its members read as strings. */
  type Payload = map<string, string>

  /** The keys that the constructor reads, in the order it reads them. */
  const Keys: seq<string> := ["device", "version", "date", "kernel", "baseband", "mods",
                              "expected", "current", "solution", "reproduce", "directions"]

  /** The `KeyError` raised for the first key that the payload lacks. */
  datatype PayloadError = MissingKey(key: string)

  /** The first of `keys` that `p` lacks, if any. */
  function FirstMissing(p: Payload, keys: seq<string>): (r: Option<string>)
    ensures r.None? <==> forall i :: 0 <= i < |keys| ==> keys[i] in p
    ensures r.Some? ==> exists i :: 0 <= i < |keys| && keys[i] == r.value && r.value !in p
                                    && forall j :: 0 <= j < i ==> keys[j] in p
  {
    if keys == [] then None
    else if keys[0] !in p then Some(keys[0])
    else
      var r := FirstMissing(p, keys[1..]);
      assert r.Some? ==> exists i :: 0 <= i < |keys| && keys[i] == r.value && r.value !in p
                                     && forall j :: 0 <= j < i ==> keys[j] in p by {
        if r.Some? {
          var i :| 0 <= i < |keys[1..]| && keys[1..][i] == r.value && r.value !in p
                   && forall j :: 0 <= j < i ==> keys[1..][j] in p;
          assert forall j :: 0 <= j < i + 1 ==> keys[j] in p by {
            forall j | 0 <= j < i + 1 ensures keys[j] in p {
              if j > 0 { assert keys[j] == keys[1..][j - 1]; }
            }
          }
        }
      }
      r
  }

  /**
   * `IssueBody(issue_body)`: every field is copied verbatim except `version`, which is
   * normalised; a missing key fails with the first missing key in reading order. The fields
   * are named by their keys, `Keys[0]` being `device` and so on.
   */
  function NewIssueBody(p: Payload): (r: Result<IssueBody, PayloadError>)
    ensures r.Ok? <==> forall i :: 0 <= i < |Keys| ==> Keys[i] in p
    ensures r.Err? ==> exists i :: 0 <= i < |Keys| && r.error == MissingKey(Keys[i]) && Keys[i] !in p
                                   && forall j :: 0 <= j < i ==> Keys[j] in p
    ensures r.Ok? ==> r.value == IssueBody(p[Keys[0]], NormalizeVersion(p[Keys[1]]), p[Keys[2]],
                                           p[Keys[3]], p[Keys[4]], p[Keys[5]], p[Keys[6]],
                                           p[Keys[7]], p[Keys[8]], p[Keys[9]], p[Keys[10]])
  {
    var missing := FirstMissing(p, Keys);
    if missing.Some? then Err(MissingKey(missing.value))
    else
      assert Keys[0] in p && Keys[1] in p && Keys[2] in p && Keys[3] in p && Keys[4] in p && Keys[5] in p
             && Keys[6] in p && Keys[7] in p && Keys[8] in p && Keys[9] in p && Keys[10] in p;
      Ok(IssueBody(p["device"], NormalizeVersion(p["version"]), p["date"],
                   p["kernel"], p["baseband"], p["mods"], p["expected"],
                   p["current"], p["solution"], p["reproduce"], p["directions"]))
  }

  const Lineage: string := "lineage-"

  /** `re.findall(r'^lineage-(\d+)\.(\d+)', v)`: the two groups of the match at the start, if any. */
  function FindLineageMajorMinor(v: string): Option<(string, string)> {
    if !(Lineage <= v) then None
    else
      var major := LeadingDigits(v[|Lineage|..]);
      var after := v[|Lineage| + |major|..];
      if major == [] || after == [] || after[0] != '.' then None
      else
        var minor := LeadingDigits(after[1..]);
        if minor == [] then None else Some((major, minor))
  }

  /** `re.findall(r'^lineage-(\d+)', v)`: the group of the match at the start, if any. */
  function FindLineageMajor(v: string): Option<string> {
    if !(Lineage <= v) then None
    else
      var major := LeadingDigits(v[|Lineage|..]);
      if major == [] then None else Some(major)
  }

  /** `re.findall(r'^(\d+)$', v)`: the whole text, less a final newline, if it is all digits. */
  function FindNumber(v: string): Option<string> {
    var w := StripFinalNewline(v);
    if IsDigitRun(w) then Some(w) else None
  }

  /** `re.findall(r'^(\d+)\.(\d+)$', v)`: the two digit runs around the only dot, if that is the whole text. */
  function FindDecimal(v: string): Option<(string, string)> {
    var w := StripFinalNewline(v);
    var major := LeadingDigits(w);
    if major == [] || |major| == |w| || w[|major|] != '.' then None
    else
      var minor := w[|major| + 1..];
      if IsDigitRun(minor) then Some((major, minor)) else None
  }

  /**
   * The version rewrite of `IssueBody.__init__`: the first pattern that matches decides.
   * The second rule yields `<major>.0` without the `lineage-` prefix, as the code does.
   */
  function NormalizeVersion(v: string): string {
    var m1 := FindLineageMajorMinor(v);
    if m1.Some? then Lineage + m1.value.0 + "." + m1.value.1
    else
      var m2 := FindLineageMajor(v);
      if m2.Some? then m2.value + ".0"
      else
        var m3 := FindNumber(v);
        if m3.Some? then Lineage + m3.value + ".0"
        else
          var m4 := FindDecimal(v);
          if m4.Some? then Lineage + m4.value.0 + "." + m4.value.1
          else v
  }

  /** Rule 1: `lineage-M.N` followed by anything that does not extend N becomes `lineage-M.N`. */
  lemma NormalizeLineageMajorMinor(major: string, minor: string, tail: string)
    requires IsDigitRun(major) && IsDigitRun(minor)
    requires tail == [] || !IsDigit(tail[0])
    ensures NormalizeVersion(Lineage + major + "." + minor + tail) == Lineage + major + "." + minor
  {
    var v := Lineage + major + "." + minor + tail;
    assert v[|Lineage|..] == major + ("." + minor + tail);
    LeadingDigitsOf(major, "." + minor + tail);
    assert v[|Lineage| + |major|..] == "." + minor + tail;
    assert ("." + minor + tail)[1..] == minor + tail;
    LeadingDigitsOf(minor, tail);
  }

  /**
   * Rule 2: `lineage-M` followed by anything that neither extends M nor starts `.N` becomes
   * `M.0`, without the prefix.
   */
  lemma NormalizeLineageMajor(major: string, tail: string)
    requires IsDigitRun(major)
    requires tail == [] || !IsDigit(tail[0])
    requires !(|tail| >= 2 && tail[0] == '.' && IsDigit(tail[1]))
    ensures NormalizeVersion(Lineage + major + tail) == major + ".0"
  {
    var v := Lineage + major + tail;
    assert v[|Lineage|..] == major + tail;
    LeadingDigitsOf(major, tail);
    assert v[|Lineage| + |major|..] == tail;
    if tail != [] && tail[0] == '.' {
      assert LeadingDigits(tail[1..]) == [];
    }
  }

  /** Rule 3: an all-digit version `M` (the `$` anchor admits one final newline) becomes `lineage-M.0`. */
  lemma NormalizeNumber(major: string, nl: string)
    requires IsDigitRun(major)
    requires nl == "" || nl == "\n"
    ensures NormalizeVersion(major + nl) == Lineage + major + ".0"
  {
    var v := major + nl;
    assert v[0] == major[0];
    assert !(Lineage <= v);
    StripFinalNewlineOf(major, nl);
  }

  /** Rule 4: a version that is exactly `M.N` (up to one final newline) becomes `lineage-M.N`. */
  lemma NormalizeDecimal(major: string, minor: string, nl: string)
    requires IsDigitRun(major) && IsDigitRun(minor)
    requires nl == "" || nl == "\n"
    ensures NormalizeVersion(major + "." + minor + nl) == Lineage + major + "." + minor
  {
    var w := major + "." + minor;
    var v := w + nl;
    assert v[0] == major[0];
    assert !(Lineage <= v);
    StripFinalNewlineOf(w, nl);
    assert w == major + ("." + minor);
    LeadingDigitsOf(major, "." + minor);
    assert !IsDigitRun(w) by {
      assert w[|major|] == '.';
    }
    assert w[|major| + 1..] == minor;
  }

  /** `w` is `M.N` for two digit runs. */
  ghost predicate IsDecimal(w: string) {
    exists k :: 0 < k < |w| && w[k] == '.' && IsDigitRun(w[..k]) && IsDigitRun(w[k + 1..])
  }

  /** A version that none of the four patterns matches is kept as it is. */
  lemma NormalizeOther(v: string)
    requires !(Lineage <= v && |v| > |Lineage| && IsDigit(v[|Lineage|]))
    requires !IsDigitRun(StripFinalNewline(v))
    requires !IsDecimal(StripFinalNewline(v))
    ensures NormalizeVersion(v) == v
  {
    if Lineage <= v {
      assert LeadingDigits(v[|Lineage|..]) == [];
    }
    var w := StripFinalNewline(v);
    var major := LeadingDigits(w);
    if !(major == [] || |major| == |w| || w[|major|] != '.') {
      assert w[..|major|] == major;
      assert !IsDigitRun(w[|major| + 1..]);
    }
  }

  /** A canonical `lineage-M.N` is a fixed point of the rewrite. */
  lemma CanonicalIsFixedPoint(major: string, minor: string)
    requires IsDigitRun(major) && IsDigitRun(minor)
    ensures NormalizeVersion(Lineage + major + "." + minor) == Lineage + major + "." + minor
  {
    NormalizeLineageMajorMinor(major, minor, "");
    assert Lineage + major + "." + minor + "" == Lineage + major + "." + minor;
  }

  /**
   * Rewriting twice changes nothing more, except after rule 2, whose `M.0` the second pass
   * turns into `lineage-M.0`: the rewrite is idempotent exactly on the inputs rule 2 does not
   * decide, and otherwise the second pass only puts back the prefix rule 2 dropped.
   */
  lemma NormalizeTwice(v: string)
    ensures NormalizeVersion(NormalizeVersion(v)) == NormalizeVersion(v)
            || NormalizeVersion(NormalizeVersion(v)) == Lineage + NormalizeVersion(v)
    ensures NormalizeVersion(NormalizeVersion(v)) != NormalizeVersion(v)
            <==> FindLineageMajorMinor(v).None? && FindLineageMajor(v).Some?
  {
    var m1 := FindLineageMajorMinor(v);
    var m2 := FindLineageMajor(v);
    var m3 := FindNumber(v);
    var m4 := FindDecimal(v);
    if m1.Some? {
      CanonicalIsFixedPoint(m1.value.0, m1.value.1);
    } else if m2.Some? {
      NormalizeDecimal(m2.value, "0", "");
      assert m2.value + "." + "0" + "" == m2.value + ".0";
      assert Lineage + m2.value + "." + "0" == Lineage + (m2.value + ".0");
      assert |Lineage + (m2.value + ".0")| != |m2.value + ".0"|;
    } else if m3.Some? {
      CanonicalIsFixedPoint(m3.value, "0");
      assert Lineage + m3.value + "." + "0" == Lineage + m3.value + ".0";
    } else if m4.Some? {
      CanonicalIsFixedPoint(m4.value.0, m4.value.1);
    }
  }

  /** Rule 1 on a point release: the third component is dropped. */
  lemma NormalizePointRelease()
    ensures NormalizeVersion("lineage-20.0.1") == "lineage-20.0"
  {
    NormalizeLineageMajorMinor("20", "0", ".1");
    assert Lineage + "20" + "." + "0" + ".1" == "lineage-20.0.1";
    assert Lineage + "20" + "." + "0" == "lineage-20.0";
  }

  /**
   * Rule 2 drops the prefix, and a second pass would put it back: the rewrite is not
   * idempotent on its own output.
   */
  lemma NormalizeDropsPrefix()
    ensures NormalizeVersion("lineage-20-something") == "20.0"
    ensures NormalizeVersion("20.0") == "lineage-20.0"
  {
    NormalizeLineageMajor("20", "-something");
    assert Lineage + "20" + "-something" == "lineage-20-something";
    NormalizeDecimal("20", "0", "");
    assert "20" + "." + "0" + "" == "20.0";
    assert Lineage + "20" + "." + "0" == "lineage-20.0";
  }

  /** Rule 3 on a bare major version. */
  lemma NormalizeBareMajor()
    ensures NormalizeVersion("20") == "lineage-20.0"
  {
    NormalizeNumber("20", "");
    assert "20" + "" == "20";
    assert Lineage + "20" + ".0" == "lineage-20.0";
  }
}

=== FILE: ordered_map.dfy ===
/**
 * Python's `dict` from codename to version string as label.py uses it: assignment `d[k] = v` adds a new key at the end of the
 * key order and overwrites the value of an existing key without moving it.
 */
module OrderedMap {
  import opened Wrappers

  datatype Dict = Dict(keys: seq<string>, values: map<string, string>)

  function Empty(): Dict {
    Dict([], map[])
  }

  /** The keys in order are exactly the keys of the mapping, each once. */
  ghost predicate Valid(d: Dict) {
    (forall i, j :: 0 <= i < j < |d.keys| ==> d.keys[i] != d.keys[j])
    && (forall k :: k in d.values <==> k in d.keys)
  }

  /** `d[k] = v`. */
  function Put(d: Dict, k: string, v: string): Dict {
    if k in d.values then Dict(d.keys, d.values[k := v])
    else Dict(d.keys + [k], d.values[k := v])
  }

  lemma PutValid(d: Dict, k: string, v: string)
    requires Valid(d)
    ensures Valid(Put(d, k, v))
    ensures Put(d, k, v).values[k] == v
  {
  }

  /**
   * The dictionary that a loop builds from an empty one by performing, in order, the
   * assignments `Some((k, v))` and skipping the steps `None`.
   */
  function Build(steps: seq<Option<(string, string)>>): Dict {
    if steps == [] then Empty()
    else
      var d := Build(steps[..|steps| - 1]);
      match steps[|steps| - 1]
      case None => d
      case Some((k, v)) => Put(d, k, v)
  }

  /** Step `i` assigns to key `k`. */
  predicate Assigns(steps: seq<Option<(string, string)>>, i: int, k: string)
    requires 0 <= i < |steps|
  {
    steps[i].Some? && steps[i].value.0 == k
  }

  lemma {:induction false} BuildValid(steps: seq<Option<(string, string)>>)
    ensures Valid(Build(steps))
  {
    if steps != [] {
      BuildValid(steps[..|steps| - 1]);
      if steps[|steps| - 1].Some? {
        var (k, v) := steps[|steps| - 1].value;
        PutValid(Build(steps[..|steps| - 1]), k, v);
      }
    }
  }

  /** A key is present exactly when some step assigned to it. */
  lemma {:induction false} BuildHasKey(steps: seq<Option<(string, string)>>, k: string)
    ensures k in Build(steps).values <==> exists i :: 0 <= i < |steps| && Assigns(steps, i, k)
  {
    if steps != [] {
      var n := |steps| - 1;
      var init := steps[..n];
      BuildHasKey(init, k);
      forall i | 0 <= i < n
        ensures Assigns(init, i, k) == Assigns(steps, i, k)
      {
      }
      if Assigns(steps, n, k) {
        assert k in Build(steps).values;
      } else {
        assert k in Build(steps).values <==> k in Build(init).values;
      }
    }
  }

  /** The value of a key is the one given by the last step that assigned to it. */
  lemma {:induction false} BuildLastWins(steps: seq<Option<(string, string)>>, i: int)
    requires 0 <= i < |steps| && steps[i].Some?
    requires forall j :: i < j < |steps| ==> !Assigns(steps, j, steps[i].value.0)
    ensures steps[i].value.0 in Build(steps).values
    ensures Build(steps).values[steps[i].value.0] == steps[i].value.1
  {
    var n := |steps| - 1;
    if i < n {
      var init := steps[..n];
      forall j | i < j < |init|
        ensures !Assigns(init, j, init[i].value.0)
      {
        assert !Assigns(steps, j, steps[i].value.0);
      }
      BuildLastWins(init, i);
      assert !Assigns(steps, n, steps[i].value.0);
      assert init[i] == steps[i];
    }
  }

  /** Every value in the dictionary was given by some step. */
  lemma {:induction false} BuildValueFrom(steps: seq<Option<(string, string)>>, k: string)
    requires k in Build(steps).values
    ensures exists i :: 0 <= i < |steps| && steps[i] == Some((k, Build(steps).values[k]))
  {
    var n := |steps| - 1;
    var init := steps[..n];
    if steps[n].Some? && steps[n].value.0 == k {
      assert steps[n] == Some((k, Build(steps).values[k]));
    } else {
      BuildValueFrom(init, k);
      var i :| 0 <= i < |init| && init[i] == Some((k, Build(init).values[k]));
      assert steps[i] == init[i];
    }
  }

  /**
   * Keys keep the order of their first assignment: for two keys at positions `p < q`, the key
   * at `p` was assigned at some step before every assignment of the key at `q`.
   */
  lemma {:induction false} BuildKeyOrder(steps: seq<Option<(string, string)>>, p: int, q: int)
    requires 0 <= p < q < |Build(steps).keys|
    ensures exists i :: 0 <= i < |steps| && Assigns(steps, i, Build(steps).keys[p])
                        && forall j :: 0 <= j <= i ==> !Assigns(steps, j, Build(steps).keys[q])
  {
    var n := |steps| - 1;
    var init := steps[..n];
    var d := Build(init);
    var keys := Build(steps).keys;
    BuildValid(init);
    if q < |d.keys| {
      assert keys[p] == d.keys[p] && keys[q] == d.keys[q];
      BuildKeyOrder(init, p, q);
      var i :| 0 <= i < |init| && Assigns(init, i, d.keys[p])
        && forall j :: 0 <= j <= i ==> !Assigns(init, j, d.keys[q]);
      assert Assigns(steps, i, keys[p]);
      forall j | 0 <= j <= i
        ensures !Assigns(steps, j, keys[q])
      {
        assert !Assigns(init, j, d.keys[q]);
      }
    } else {
      // the key at q is new in the last step, so no earlier step assigned to it
      assert keys == d.keys + [steps[n].value.0] && q == |d.keys|;
      var kq := keys[q];
      var kp := keys[p];
      assert kq !in d.values;
      BuildHasKey(init, kq);
      assert kp in d.values;
      BuildHasKey(init, kp);
      var i :| 0 <= i < |init| && Assigns(init, i, kp);
      assert Assigns(steps, i, kp);
      forall j | 0 <= j <= i
        ensures !Assigns(steps, j, kq)
      {
        assert !Assigns(init, j, kq);
      }
    }
  }
}

=== FILE: text.dfy ===
/**
 * The string primitives that label.py takes from Python: the character classes `\d` and
 * `str.isspace()`, the greedy digit runs of its regular expressions, the `$` anchor,
 * the substring test `in`, `str.split()` without arguments and `str.join`.
 * Each comes with a partner property: an inverse or an independent characterisation.
 */
module Text {

  /** `\d`, restricted to the ASCII digits. */
  predicate IsDigit(c: char) {
    '0' <= c <= '9'
  }

  predicate AllDigits(s: string) {
    forall i :: 0 <= i < |s| ==> IsDigit(s[i])
  }

  /** What `\d+` matches in full: a non-empty run of digits. */
  predicate IsDigitRun(s: string) {
    |s| > 0 && AllDigits(s)
  }

  /** The characters for which Python's `str.isspace()` holds. */
  predicate IsSpace(c: char) {
    c == ' ' || '\t' <= c <= '\r' || '\U{1c}' <= c <= '\U{1f}' || c == '\U{85}' || c == '\U{a0}'
    || c == '\U{1680}' || '\U{2000}' <= c <= '\U{200a}' || c == '\U{2028}' || c == '\U{2029}'
    || c == '\U{202f}' || c == '\U{205f}' || c == '\U{3000}'
  }

  /** A field of `str.split()`: non-empty and free of whitespace. */
  predicate IsWord(w: string) {
    |w| > 0 && forall i :: 0 <= i < |w| ==> !IsSpace(w[i])
  }

  /** The longest prefix of `s` made of digits: what a greedy `\d+` consumes. */
  function LeadingDigits(s: string): (d: string)
    ensures d <= s && AllDigits(d)
    ensures |d| < |s| ==> !IsDigit(s[|d|])
  {
    if s != [] && IsDigit(s[0]) then [s[0]] + LeadingDigits(s[1..]) else []
  }

  /** A run of digits followed by anything but a digit is exactly what the greedy run takes. */
  lemma {:induction false} LeadingDigitsOf(d: string, tail: string)
    requires AllDigits(d)
    requires tail == [] || !IsDigit(tail[0])
    ensures LeadingDigits(d + tail) == d
  {
    if d != [] {
      assert (d + tail)[1..] == d[1..] + tail;
      LeadingDigitsOf(d[1..], tail);
    } else {
      assert d + tail == tail;
    }
  }

  /**
   * The text that a pattern ending in `$` has to match in full: Python's `$` matches at the
   * end of the string and also just before a final newline.
   */
  function StripFinalNewline(s: string): (r: string)
    ensures r == s || r + "\n" == s
    ensures |s| > 0 && s[|s| - 1] == '\n' ==> |r| == |s| - 1
  {
    if |s| > 0 && s[|s| - 1] == '\n' then s[..|s| - 1] else s
  }

  /** A text that holds no newline loses nothing to the `$` anchor, with or without one final newline. */
  lemma StripFinalNewlineOf(w: string, nl: string)
    requires nl == "" || nl == "\n"
    requires w == [] || w[|w| - 1] != '\n'
    ensures StripFinalNewline(w + nl) == w
  {
    if nl == "" {
      assert w + nl == w;
    } else {
      assert (w + nl)[..|w|] == w;
    }
  }

  /** `pat in s` for strings. */
  predicate Contains(s: string, pat: string)
    decreases |s|
  {
    pat <= s || (s != [] && Contains(s[1..], pat))
  }

  /** The substring test finds `pat` exactly when it occurs at some position of `s`. */
  lemma {:induction false} ContainsAt(s: string, pat: string)
    ensures Contains(s, pat) <==> exists i :: 0 <= i <= |s| && pat <= s[i..]
  {
    if pat <= s {
      assert s[0..] == s;
    } else if s == [] {
    } else {
      ContainsAt(s[1..], pat);
      if Contains(s[1..], pat) {
        var i :| 0 <= i <= |s[1..]| && pat <= s[1..][i..];
        assert s[1..][i..] == s[i + 1..];
      } else {
        forall i | 0 <= i <= |s|
          ensures !(pat <= s[i..])
        {
          if i > 0 {
            assert s[1..][i - 1..] == s[i..];
          }
        }
      }
    }
  }

  /** The longest prefix of `s` free of whitespace. */
  function Word(s: string): (w: string)
    ensures w <= s
    ensures forall i :: 0 <= i < |w| ==> !IsSpace(w[i])
    ensures |w| < |s| ==> IsSpace(s[|w|])
  {
    if s != [] && !IsSpace(s[0]) then [s[0]] + Word(s[1..]) else []
  }

  /** `s.split()`: the maximal runs of non-whitespace characters, in order. */
  function Fields(s: string): (r: seq<string>)
    ensures forall i :: 0 <= i < |r| ==> IsWord(r[i])
    decreases |s|
  {
    if s == [] then []
    else if IsSpace(s[0]) then Fields(s[1..])
    else
      var w := Word(s);
      [w] + Fields(s[|w|..])
  }

  /** `sep.join(xs)`. */
  function Join(sep: string, xs: seq<string>): string {
    if xs == [] then ""
    else if |xs| == 1 then xs[0]
    else xs[0] + sep + Join(sep, xs[1..])
  }

  /** `s.split(c)` for one separator character: always at least one piece. */
  function Split(s: string, c: char): (r: seq<string>)
    ensures |r| > 0
    decreases |s|
  {
    if s == [] then [""]
    else
      var rest := Split(s[1..], c);
      if s[0] == c then [""] + rest else [[s[0]] + rest[0]] + rest[1..]
  }

  lemma {:induction false} WordOf(w: string, rest: string)
    requires forall i :: 0 <= i < |w| ==> !IsSpace(w[i])
    requires rest == [] || IsSpace(rest[0])
    ensures Word(w + rest) == w
  {
    if w == [] {
      assert w + rest == rest;
    } else {
      assert (w + rest)[1..] == w[1..] + rest;
      WordOf(w[1..], rest);
    }
  }

  /** Splitting words joined by single spaces gives the words back. */
  lemma {:induction false} FieldsOfJoin(ws: seq<string>)
    requires forall i :: 0 <= i < |ws| ==> IsWord(ws[i])
    ensures Fields(Join(" ", ws)) == ws
  {
    if ws == [] {
    } else if |ws| == 1 {
      WordOf(ws[0], "");
      assert ws[0] + "" == ws[0];
      assert ws[0][|ws[0]|..] == [];
    } else {
      var s := Join(" ", ws);
      var rest := Join(" ", ws[1..]);
      assert s == ws[0] + (" " + rest);
      WordOf(ws[0], " " + rest);
      assert s[|ws[0]|..] == " " + rest;
      assert (" " + rest)[1..] == rest;
      FieldsOfJoin(ws[1..]);
      assert [ws[0]] + ws[1..] == ws;
    }
  }

  predicate AllSpace(s: string) {
    forall i :: 0 <= i < |s| ==> IsSpace(s[i])
  }

  /** Words laid out with the given separators between them: `ws[0] + seps[0] + ws[1] + ...`. */
  function Spread(ws: seq<string>, seps: seq<string>): string
    requires |seps| + 1 == |ws| || (ws == [] && seps == [])
  {
    if |ws| <= 1 then (if ws == [] then "" else ws[0])
    else ws[0] + seps[0] + Spread(ws[1..], seps[1..])
  }

  /** Leading whitespace contributes no field. */
  lemma {:induction false} FieldsSkipSpace(sp: string, s: string)
    requires AllSpace(sp)
    ensures Fields(sp + s) == Fields(s)
  {
    if sp == [] {
      assert sp + s == s;
    } else {
      assert (sp + s)[1..] == sp[1..] + s;
      FieldsSkipSpace(sp[1..], s);
    }
  }

  /** A word followed by whitespace or by nothing is the next field. */
  lemma FieldsOfWord(w: string, rest: string)
    requires IsWord(w)
    requires rest == [] || IsSpace(rest[0])
    ensures Fields(w + rest) == [w] + Fields(rest)
  {
    WordOf(w, rest);
    assert (w + rest)[|w|..] == rest;
  }

  lemma {:induction false} FieldsOfSpread(ws: seq<string>, seps: seq<string>, trail: string)
    requires forall i :: 0 <= i < |ws| ==> IsWord(ws[i])
    requires |seps| + 1 == |ws| || (ws == [] && seps == [])
    requires forall i :: 0 <= i < |seps| ==> |seps[i]| > 0 && AllSpace(seps[i])
    requires AllSpace(trail)
    ensures Fields(Spread(ws, seps) + trail) == ws
  {
    if ws == [] {
      FieldsSkipSpace(trail, "");
      assert trail + "" == trail;
      assert Spread(ws, seps) + trail == trail;
    } else if |ws| == 1 {
      FieldsOfWord(ws[0], trail);
      FieldsSkipSpace(trail, "");
      assert trail + "" == trail;
    } else {
      var rest := Spread(ws[1..], seps[1..]) + trail;
      assert Spread(ws, seps) + trail == ws[0] + (seps[0] + rest);
      FieldsOfWord(ws[0], seps[0] + rest);
      FieldsSkipSpace(seps[0], rest);
      FieldsOfSpread(ws[1..], seps[1..], trail);
      assert [ws[0]] + ws[1..] == ws;
    }
  }

  /**
   * `str.split()` recovers the words of any layout: words with any non-empty whitespace between
   * them and any whitespace before and after.
   */
  lemma FieldsOfLayout(lead: string, ws: seq<string>, seps: seq<string>, trail: string)
    requires forall i :: 0 <= i < |ws| ==> IsWord(ws[i])
    requires |seps| + 1 == |ws| || (ws == [] && seps == [])
    requires forall i :: 0 <= i < |seps| ==> |seps[i]| > 0 && AllSpace(seps[i])
    requires AllSpace(lead) && AllSpace(trail)
    ensures Fields(lead + Spread(ws, seps) + trail) == ws
  {
    assert lead + Spread(ws, seps) + trail == lead + (Spread(ws, seps) + trail);
    FieldsSkipSpace(lead, Spread(ws, seps) + trail);
    FieldsOfSpread(ws, seps, trail);
  }

  lemma {:induction false} SplitOfPiece(w: string, c: char)
    requires c !in w
    ensures Split(w, c) == [w]
  {
    if w != [] {
      SplitOfPiece(w[1..], c);
      assert [w[0]] + w[1..] == w;
    }
  }

  lemma {:induction false} SplitOfSeparated(w: string, c: char, rest: string)
    requires c !in w
    ensures Split(w + [c] + rest, c) == [w] + Split(rest, c)
  {
    if w == [] {
      assert w + [c] + rest == [c] + rest;
      assert ([c] + rest)[1..] == rest;
    } else {
      assert (w + [c] + rest)[1..] == w[1..] + [c] + rest;
      SplitOfSeparated(w[1..], c, rest);
      assert [w[0]] + w[1..] == w;
    }
  }

  /** Splitting on `c` undoes joining with `c`, when no piece holds `c`. */
  lemma {:induction false} SplitOfJoin(xs: seq<string>, c: char)
    requires xs != []
    requires forall j :: 0 <= j < |xs| ==> c !in xs[j]
    ensures Split(Join([c], xs), c) == xs
  {
    if |xs| == 1 {
      SplitOfPiece(xs[0], c);
    } else {
      SplitOfSeparated(xs[0], c, Join([c], xs[1..]));
      SplitOfJoin(xs[1..], c);
      assert [xs[0]] + xs[1..] == xs;
    }
  }

  /** Joining two non-empty lists is joining each and putting the separator between. */
  lemma {:induction false} JoinAppend(sep: string, xs: seq<string>, ys: seq<string>)
    requires xs != [] && ys != []
    ensures Join(sep, xs + ys) == Join(sep, xs) + sep + Join(sep, ys)
  {
    if |xs| == 1 {
      assert (xs + ys)[1..] == ys;
    } else {
      assert (xs + ys)[1..] == xs[1..] + ys;
      JoinAppend(sep, xs[1..], ys);
    }
  }
}

=== FILE: validation.dfy ===
/**
 * `issue_errors` of label.py: the problems of an issue against the device table, as the
 * exact messages the bot posts, in the order it checks them. The table is a parameter here;
 * label.py downloads it inside the function.
 */
module Validation {
  import opened Text
  import opened OrderedMap
  import opened Issue

  function DeviceError(device: string, codenames: seq<string>): string {
    "Device \"" + device + "\" is not a valid device codename. Supported values are: " + Join(", ", codenames)
  }

  function VersionError(version: string, supported: string): string {
    "LineageOS version \"" + version + "\" is not a valid LineageOS version. Supported value is: " + supported
  }

  function DateError(date: string): string {
    "Build date \"" + date + "\" is not a valid date. Valid date format is YYYYMMDD"
  }

  /** `re.findall(r'^\d{8}$', date)` is non-empty: eight digits, then at most one newline. */
  predicate IsDate(date: string) {
    var w := StripFinalNewline(date);
    |w| == 8 && AllDigits(w)
  }

  /**
   * The list `issue_errors` returns. The version check runs when `devices.get(device)` is
   * truthy: the device is known and its version is not the empty string.
   */
  function Errors(issue: IssueBody, devices: Dict): seq<string> {
    var known := issue.device in devices.values;
    (if !known then [DeviceError(issue.device, devices.keys)] else [])
    + (if known && devices.values[issue.device] != "" && issue.version != devices.values[issue.device]
       then [VersionError(issue.version, devices.values[issue.device])] else [])
    + (if !IsDate(issue.date) then [DateError(issue.date)] else [])
  }

  /** The body of `issue_errors`, appending to `ret` check by check. */
  method IssueErrors(issue: IssueBody, devices: Dict) returns (ret: seq<string>)
    ensures ret == Errors(issue, devices)
  {
    ret := [];
    if issue.device !in devices.values {
      ret := ret + [DeviceError(issue.device, devices.keys)];
    }
    if issue.device in devices.values {
      var deviceVersion := devices.values[issue.device];
      if deviceVersion != "" && issue.version != deviceVersion {
        ret := ret + [VersionError(issue.version, deviceVersion)];
      }
    }
    if !IsDate(issue.date) {
      ret := ret + [DateError(issue.date)];
    }
  }

  /** The three kinds of message are told apart by their first character. */
  lemma MessageKinds(device: string, codenames: seq<string>, version: string, supported: string, date: string)
    ensures DeviceError(device, codenames)[0] == 'D'
    ensures VersionError(version, supported)[0] == 'L'
    ensures DateError(date)[0] == 'B'
  {
  }

  /** A version message determines the supported version it names. */
  lemma VersionErrorInjective(version: string, a: string, b: string)
    requires VersionError(version, a) == VersionError(version, b)
    ensures a == b
  {
    var prefix := "LineageOS version \"" + version + "\" is not a valid LineageOS version. Supported value is: ";
    assert VersionError(version, a) == prefix + a && VersionError(version, b) == prefix + b;
    assert (prefix + a)[|prefix|..] == a;
    assert (prefix + b)[|prefix|..] == b;
  }

  /**
   * The device error is reported exactly when the device is not a key of the table; it then
   * comes first and lists every codename in table order.
   */
  lemma DeviceErrorIff(issue: IssueBody, devices: Dict)
    ensures DeviceError(issue.device, devices.keys) in Errors(issue, devices) <==> issue.device !in devices.values
    ensures issue.device !in devices.values ==> Errors(issue, devices)[0] == DeviceError(issue.device, devices.keys)
  {
    var errs := Errors(issue, devices);
    var msg := DeviceError(issue.device, devices.keys);
    if issue.device in devices.values {
      forall e | e in errs ensures e != msg {
        MessageKinds(issue.device, devices.keys, issue.version, devices.values[issue.device], issue.date);
      }
    }
  }

  /**
   * A version error naming `supported` is reported exactly when the device is known, the table
   * gives `supported` for it, `supported` is non-empty and the issue's version differs from it.
   */
  lemma VersionErrorIff(issue: IssueBody, devices: Dict, supported: string)
    ensures VersionError(issue.version, supported) in Errors(issue, devices)
            <==> issue.device in devices.values && devices.values[issue.device] == supported
                 && supported != "" && issue.version != supported
  {
    var errs := Errors(issue, devices);
    var msg := VersionError(issue.version, supported);
    MessageKinds(issue.device, devices.keys, issue.version, supported, issue.date);
    if msg in errs {
      var k :| 0 <= k < |errs| && errs[k] == msg;
      assert errs[k][0] == 'L';
      if issue.device !in devices.values {
        MessageKinds(issue.device, devices.keys, issue.version, supported, issue.date);
        assert false;
      }
      var v := devices.values[issue.device];
      if !(v != "" && issue.version != v) {
        assert false;
      }
      assert errs[k] == VersionError(issue.version, v);
      VersionErrorInjective(issue.version, supported, v);
    }
  }

  /** The date error is reported exactly when the date is not eight digits, and then it is last. */
  lemma DateErrorIff(issue: IssueBody, devices: Dict)
    ensures DateError(issue.date) in Errors(issue, devices) <==> !IsDate(issue.date)
    ensures !IsDate(issue.date) ==> Errors(issue, devices)[|Errors(issue, devices)| - 1] == DateError(issue.date)
  {
    var errs := Errors(issue, devices);
    var msg := DateError(issue.date);
    if IsDate(issue.date) {
      forall e | e in errs ensures e != msg {
        if issue.device in devices.values {
          MessageKinds(issue.device, devices.keys, issue.version, devices.values[issue.device], issue.date);
        } else {
          MessageKinds(issue.device, devices.keys, issue.version, "", issue.date);
        }
      }
    }
  }

  /**
   * At most one of the two table errors is reported, always before the date error: the list
   * holds at most two messages, a device error excludes every version error, and when the
   * list holds two messages the second is the date error.
   */
  lemma ErrorOrder(issue: IssueBody, devices: Dict)
    ensures |Errors(issue, devices)| <= 2
    ensures DeviceError(issue.device, devices.keys) in Errors(issue, devices)
            ==> forall s :: VersionError(issue.version, s) !in Errors(issue, devices)
    ensures |Errors(issue, devices)| == 2 ==> Errors(issue, devices)[1] == DateError(issue.date)
  {
    DeviceErrorIff(issue, devices);
    if DeviceError(issue.device, devices.keys) in Errors(issue, devices) {
      forall s
        ensures VersionError(issue.version, s) !in Errors(issue, devices)
      {
        VersionErrorIff(issue, devices, s);
      }
    }
  }

  /**
   * The list holds nothing but the three kinds of message, one for each check that fails: the
   * unknown device, the version that differs from a non-empty table version, the date that is
   * not eight digits.
   */
  lemma ErrorKinds(issue: IssueBody, devices: Dict)
    ensures forall e :: e in Errors(issue, devices) ==>
              e == DeviceError(issue.device, devices.keys) || e == DateError(issue.date)
              || exists s :: e == VersionError(issue.version, s)
    ensures |Errors(issue, devices)|
            == (if issue.device !in devices.values then 1 else 0)
               + (if issue.device in devices.values && devices.values[issue.device] != ""
                     && issue.version != devices.values[issue.device] then 1 else 0)
               + (if !IsDate(issue.date) then 1 else 0)
  {
  }

  /**
   * For a table whose versions are all non-empty (every parsed table), the list is empty exactly
   * when the device is known, the version is the table's and the date is eight digits.
   */
  lemma NoErrorsIff(issue: IssueBody, devices: Dict)
    requires forall k :: k in devices.values ==> devices.values[k] != ""
    ensures Errors(issue, devices) == []
            <==> issue.device in devices.values && issue.version == devices.values[issue.device]
                 && IsDate(issue.date)
  {
  }
}

=== FILE: wrappers.dfy ===
/** Optional values and results with an error value, used for the error paths of the bot. */
module Wrappers {

  datatype Option<+T> = None | Some(value: T)

  datatype Result<+T, +E> = Ok(value: T) | Err(error: E)
}
